=== FILE: README.md ===
# Ordered-map JSON codec, modelled in Dafny

This project models the JSON codec of an insertion-ordered generic map
(`Map[K, V]` in `v0_5_0/json.go`) and proves properties of the model.

- **Encoder** (`MarshalJSON`, `addJsonKey`, `addJsonValue`). It walks the
  entries in Front/Next order and writes `{`, then each entry as
  `key:value` separated by `,`, then `}`. The key's run-time type decides
  whether the marshaled key gets an extra pair of quotes. It stops at the
  first key or value error and returns no bytes.
- **Decoder** (`UnmarshalJSON`). It is a single pass over the tokens a
  `json.Decoder` yields, modelled as a fold (`Decoder.Walk`) that carries
  the brace depth and the map. It checks the opening `{`. Each `}`
  decrements the depth, and any later `{` is a `SyntaxError` at that
  token's offset. At depth 0, each other token is decoded as a key of the
  map's key type and paired with the next value. The pair is then
  `Store`d. At end of stream the depth must have fallen below 0.
- **Errors**: `SyntaxError` and `UnsupportedKeyTypeError` with their
  `Error()` texts, including the decimal offset (`strconv.FormatInt`).

The modules follow the program's structure:
- `Wrappers`: Option and Result.
- `Errors`: the error kinds and their texts.
- `OrderedMap`: the map as a sequence of pairs, with update-or-append `Store`.
- `JsonLib`: encoding/json, taken as parameters.
- `Keys`: the key codec.
- `Encoder` and `Decoder`.
- `RoundTrip`: encoding followed by decoding.

Keys are a closed datatype: `Str`, `PtrStr(Option<string>)`,
`Scalar(kind, repr)`, `PtrScalar(kind, Option<repr>)` and
`Unsupported(typeName)`. The decode target is the matching `KeyType`.

encoding/json is a `JsonLib.Codec` value of functions: quote/unquote a
string, marshal/parse a primitive, marshal/decode a value. `JsonLib.Lawful`
lists the facts about them that the round trip uses:
- a marshaled string reads back as itself;
- `"null"` marshals to the four letters in quotes;
- a marshaled primitive reads back unchanged from inside an extra pair of quotes, and parses back to the same value.

Two behaviours of the code are proved, not assumed:
- A nil `*string` key and a `*string` key pointing at `"null"` both
  encode as `"null"`. Decoding gives the nil key
  (`Keys.NullStringKeysCollide`, `Keys.KeyRoundTrip`).
- A nil pointer-to-primitive key encodes as `"null"`. Decoding always
  allocates, so that key never comes back
  (`Keys.NilScalarPointerNeverDecoded`).

The round trip is therefore stated for "restorable" keys: every key
except these two.

Two consequences of the code that the model keeps:
- An object-valued entry such as `{"a":{"b":1}}` decodes without error.
  After a key, `dec.Decode(&val)` consumes the whole value, so its inner
  `{` never reaches the delimiter check (v0_5_0/json.go:195-196). In the
  model, a value is a single `Val` token.
- The `{` check (v0_5_0/json.go:155-159) comes before the depth test, so a
  `{` is rejected at every depth, not only at depth 0.

## Model

| member | source | states |
|---|---|---|
| OrderedMap.Store | v0_5_0/json.go:197 | Storing a key that is already present keeps the key order; storing a new key appends the pair at the end |
| OrderedMap.StoreLookup | v0_5_0/json.go:197 | After Store(k, v), `k` maps to `v` and every other key keeps its value |
| OrderedMap.StoreKeepsUniqueKeys | v0_5_0/json.go:197 | Store never creates a duplicate key |
| OrderedMap.StoreAllFresh | v0_5_0/json.go:166-198 | Storing pairs whose keys are all new leaves them in the map in encounter order, after the existing entries |
| OrderedMap.StoreAllLookup | v0_5_0/json.go:166-198 | A key that no decoded pair mentions keeps its value; the key of the last decoded pair ends with that pair's value |
| OrderedMap.StoreAllAppend | v0_5_0/json.go:144-199 | Storing the decoded pairs in two runs is storing them in one |
| OrderedMap.StoreAllLastWins | v0_5_0/json.go:166-198 | When a key is decoded more than once, the value of its last occurrence wins |
| Errors.FormatInt | v0_5_0/json.go:75 | The decimal text of the offset is canonical (an optional '-', no leading zero, never "-0"), reads back as the same integer, and starts with '-' exactly for negative offsets |
| Errors.FormatIntUnique | v0_5_0/json.go:75 | Canonical decimal text is exactly the FormatInt text of the value it reads back as, so FormatInt's output is determined by its contract |
| Errors.SyntaxText | v0_5_0/json.go:74-76 | SyntaxError text is the message, then " (offset:", the canonical decimal offset (FormatInt) and ")"; the offset can be read back from it |
| Errors.UnsupportedKeyTypeText | v0_5_0/json.go:58-64 | The unsupported-key text is the fixed prefix followed by the type's name, or "any" for a nil type |
| Keys.AddJsonKey | v0_5_0/json.go:78-105 | An unsupported key fails with UnsupportedKeyTypeError before anything is marshaled, and a marshal error is passed on. A string or non-nil *string key is written exactly as marshaled. A nil *string and every primitive or pointer-to-primitive key are written as the marshaled text wrapped in an extra pair of quotes. Under the library's laws the fragment reads back as the key's name |
| Keys.DecodeKey | v0_5_0/json.go:166-194 | A decoded key always has the target key type. An unsupported type fails with UnsupportedKeyTypeError, and a non-string token panics. For *string, "null" gives the nil key. A primitive key fails exactly when the parser fails, and then with the parser's own error. A pointer-to-primitive key is never nil |
| Keys.KeyRoundTrip | v0_5_0/json.go:166-194 | A key that addJsonKey encodes decodes back from its object-key name exactly when it is restorable |
| Keys.NullStringKeysCollide | v0_5_0/json.go:84-104 | A nil *string key and a *string key pointing at "null" produce the same fragment `"null"` |
| Keys.NilScalarPointerNeverDecoded | v0_5_0/json.go:184-191 | A nil pointer-to-primitive key encodes as `"null"`, yet no token decodes to a nil pointer-to-primitive key |
| Encoder.EncodeEntries | v0_5_0/json.go:22-46 | Entries are encoded in order, one member per entry. Encoding fails exactly when some entry fails, and then with the first failing entry's error |
| Encoder.MarshalFailsAtFirstBadEntry | v0_5_0/json.go:24-44 | When entry i is the first that fails, the result is its key's error, or its value's error if the key encoded |
| Encoder.Marshal | v0_5_0/json.go:18-50 | Encoding succeeds exactly when every entry encodes, and then the text is braced. Otherwise the error is the first failing entry's. Its partners are MarshalJSON (the loop computes it) and RoundTrip.RoundTripRestoresMap (decoding inverts it) |
| Encoder.IntKeyExample | v0_5_0/json.go:88-104 | An int key 7 whose value marshals to `"x"` encodes as `{"7":"x"}` |
| Encoder.MarshalEmpty | v0_5_0/json.go:18-49 | An empty map encodes to exactly `{}` |
| Encoder.MarshalJSON | v0_5_0/json.go:18-50 | The buffer loop returns `{`, the entries' `key:value` members in Front/Next order separated by `,`, then `}`. At the first key or value error it returns that error and no bytes |
| Decoder.Unmarshal | v0_5_0/json.go:118-208 | Nothing is stored unless the input opens with `{`. A stream that ends in a tokenizer error never decodes successfully; the error returned is the tokenizer's own only when the loop raised nothing first. A successful decode reached EOF, and read at least one `}` unless the input was empty. UnmarshalSucceedsIff states the converse |
| Decoder.Walk | v0_5_0/json.go:144-199 | The loop only lowers the depth, by at most one per `}`. A run that raised nothing lowered it by exactly the number of `}` read. WalkAppend and WalkClean state its other properties |
| Decoder.Finish | v0_5_0/json.go:201-207 | After the loop, the decode succeeds exactly when no error stopped it, the stream reached EOF and the depth fell below 0. Otherwise the error is the loop's, the tokenizer's, or "does not end with '}'" at the EOF offset. The map is left as the loop stored it |
| Decoder.UnmarshalEmptyInput | v0_5_0/json.go:122-125 | Input already at end of stream decodes with no error and stores nothing |
| Decoder.UnmarshalNeedsOpenBrace | v0_5_0/json.go:129-141 | A first token other than the `{` delimiter is a SyntaxError at offset 0, and nothing is stored |
| Decoder.WalkAppend | v0_5_0/json.go:144-199 | The token loop is a fold: running two parts of the stream one after the other equals running them at once, unless the second part starts with a value |
| Decoder.WalkClean | v0_5_0/json.go:152-163 | A loop run that raised nothing read no `{` |
| Decoder.UnmarshalSucceedsIff | v0_5_0/json.go:143-207 | A decode succeeds exactly when the input is empty, or when all of these hold: it opens with `{`, the loop raised nothing, the stream reached EOF, and at least one `}` was read |
| Decoder.WalkRaisesNothingIff | v0_5_0/json.go:144-199 | The loop raises no error exactly when no `{` follows the opening one and every token it reads in key position (a non-delimiter at depth 0) decodes as a key. Together with UnmarshalSucceedsIff, this gives success in terms of the input alone |
| Decoder.WalkSkipsBelowZero | v0_5_0/json.go:152-166 | Once the depth is below 0, every later token is skipped. Without a `{`, nothing is stored, nothing is raised, and only the `}` read lower the depth, so input after the closing brace is accepted |
| Decoder.NestedBraceFails | v0_5_0/json.go:155-159 | Any `{` after the opening one makes the decode fail |
| Decoder.NestedBraceReportsItsOffset | v0_5_0/json.go:155-159 | The first later `{` gives a SyntaxError at that token's offset, and the map keeps only the pairs stored before it |
| Decoder.KeyFailureKeepsEarlierPairs | v0_5_0/json.go:166-194 | A key that fails to decode returns its error before Store, so only the earlier pairs remain |
| Decoder.UnmarshalKeepsUniqueKeys | v0_5_0/json.go:197 | Decoding into a map with unique keys leaves its keys unique |
| RoundTrip.WireOffsetsMatchText | v0_5_0/json.go:201-205 | In the token stream of the encoder's output, the closing brace ends at the text's length, one byte after the last value |
| RoundTrip.MemberReadsBack | v0_5_0/json.go:195-197 | A key token followed by the token of a value that addJsonValue wrote (for a value the library reads back) makes the decoder store that same value under the decoded key, then go on with the rest of the tokens |
| RoundTrip.RoundTripStores | v0_5_0/json.go:118-208 | Decoding the encoder's output into any map stores every entry in encoding order, as Store would, and raises no error |
| RoundTrip.RoundTripRestoresMap | v0_5_0/json.go:117-208 | For restorable keys and values that read back, decoding a map's encoding into an empty map gives the same entries in the same order |
| RoundTrip.MissingCloseBraceAfterStoring | v0_5_0/json.go:201-205 | The encoder's output without its final `}` stores every entry and then fails with "does not end with '}'" at the end offset |

## Left out

- encoding/json itself: `json.Marshal`, `json.Unmarshal`, the tokenizer and `InputOffset`. They are the parameters of `JsonLib.Codec` and the given token stream, and `Lawful` states the only facts assumed about them.
- The tokenizer is not run on bytes. A decode takes a `Decoder.Stream`: tokens with their offsets, ending at EOF or at a tokenizer error, which the loop returns unchanged.
- `RoundTrip.WireStream` gives the stream for the encoder's output from the members the encoder wrote. It counts offsets in characters, which equal byte offsets only for ASCII text.
- The error dropped by `dec.Decode(&val)` at v0_5_0/json.go:196. After a key, the model consumes the next token if it is a value token and decodes it with `decodeValue`. Otherwise it consumes nothing and stores V's zero value. What Decode does to the stream on malformed input is not modelled. The SyntaxError doc comment (v0_5_0/json.go:66-68) promises an error on value type mismatches, but the code drops Decode's error. So `{"a":"x"}` decoded into a map of ints succeeds and stores whatever Decode leaves in the value. The model follows the code.
- Formatting and parsing of float and integer key text. A primitive is an opaque `repr` that marshals or fails, and parses or fails.
- reflect and the generic type switch. They are replaced by the closed `Key`/`KeyType` datatypes. Named types (such as `type ID int`) are `Unsupported` in both directions.
- Interface key types. On encode, addJsonKey switches on the dynamic type of the key, so a key of type `any` is classified by the value it holds: a `Key` of that value's class. A nil interface key is `Unsupported(None)`, with the text "any". On decode, `var key K` is a nil interface, so the switch at v0_5_0/json.go:168 falls to the default, and decoding into an interface key type always fails with `UnsupportedKeyType(None)` (`KeyType.UnsupportedType(None)`). Thus a non-empty `Map[any, V]` encodes but does not decode.
- Pointer identity. A pointer key is modelled by the value it points to, and Store compares keys by that value. In Go, a decoded non-nil pointer key is always a fresh pointer: a new `str` for `*string` (v0_5_0/json.go:175-176) and `reflect.New` for pointers to primitives (v0_5_0/json.go:186-187). So `om.Store` at v0_5_0/json.go:197 always appends it, and never updates an existing entry. Decoding `{"a":1,"a":2}` with a `*string` key type gives two entries in Go, both pointing at "a", but one entry in the model. OrderedMap.StoreAllLastWins, Decoder.UnmarshalKeepsUniqueKeys and RoundTrip.RoundTripStores therefore describe string and primitive key types exactly, and pointer key types only up to equality of the pointed-to values. Into an empty map with distinct keys, RoundTrip.RoundTripRestoresMap holds either way.
- The map's own storage and iteration (`Front`, `Next`, `Store`). They are not part of this file; the map is a sequence of pairs, and `Store` updates in place or appends.
- The decoder returns `*UnsupportedKeyTypeError` (a pointer), while the encoder returns the value. Both are modelled as `UnsupportedKeyType`.
- A failed type assertion on a non-string key token is a Go panic, modelled as the `Panic` error. A real json.Decoder yields only strings in key position, so this case comes from streams the model allows but the library never produces.
- Decoder.KeyFailureKeepsEarlierPairs: stated only for string tokens. A value token in key position would be consumed as a value if the part before it ended with a key.
- RoundTrip.RoundTripRestoresMap: Go strings are bytes, and json.Marshal writes invalid UTF-8 as U+FFFD. A string or *string key holding such bytes encodes, but decodes to a different key. In the model a `string` is Unicode text and `JsonLib.Lawful` takes quoting to be lossless, so the round trip does not cover these keys.
- Encoder.AddJsonValue: json.Marshal of the value, its bytes or its error passed on unchanged, so it has no contract of its own. What it contributes to the round trip is `RoundTrip.MemberReadsBack`, under the library assumption `JsonLib.ValueReadsBack`.
- OrderedMap.StoreAllLastWins: for pointer key types, only up to equality of the pointed-to values. Go appends every freshly allocated pointer key (see "Pointer identity").
- Decoder.UnmarshalKeepsUniqueKeys: for pointer key types, keys are unique only as pointers. Two decoded keys may point at equal values (see "Pointer identity").
- RoundTrip.RoundTripStores: into a map that already holds a pointer key with the same pointed-to value, Go adds a second entry where the model updates the first (see "Pointer identity").

=== FILE: decoder.dfy ===
/**
 * UnmarshalJSON: a single pass over the tokens a json.Decoder yields for the
 * input, written as a fold that carries the brace depth and the map.
 */
module Decoder {
  import opened Wrappers
  import opened Errors
  import opened JsonLib
  import opened Keys
  import opened OrderedMap

  /**
   * One token, with the decoder's input offset just after it.
   * - Delim: a `{`, `}`, `[` or `]` delimiter from Token().
   * - Text: a string literal from Token(), already unquoted.
   * - Val: one whole JSON value as Decode reads it after a key (its raw
   *   text); read by Token() instead, it stands for a literal that is not a
   *   string (number, boolean, null).
   */
  datatype Token =
    | Delim(d: char, offset: int)
    | Text(s: string, offset: int)
    | Val(raw: string, offset: int)

  /** How the token stream stops: io.EOF at a final offset, or a tokenizer error. */
  datatype End = Eof(offset: int) | Broken(err: Error)

  datatype Stream = Stream(tokens: seq<Token>, end: End)

  /** What a decode call leaves: the map as stored so far, and the error returned, if any. */
  datatype Outcome<V> = Outcome(m: Entries<Key, V>, err: Option<Error>)

  /** The state after a run of tokens: map, depth, and the error that stopped the run, if one did. */
  datatype Walked<V> = Walked(m: Entries<Key, V>, depth: int, stop: Option<Error>)

  predicate IsDelim(t: Token, d: char) {
    t.Delim? && t.d == d
  }

  /** The token as a Go string, for the key type switch; `None` when it is not a string. */
  function KeyToken(t: Token): Option<string> {
    if t.Text? then Some(t.s) else None
  }

  /** Number of `}` delimiters. */
  function CloseCount(ts: seq<Token>): nat {
    if |ts| == 0 then 0 else (if IsDelim(ts[0], '}') then 1 else 0) + CloseCount(ts[1..])
  }

  predicate HasOpenBrace(ts: seq<Token>) {
    exists i :: 0 <= i < |ts| && IsDelim(ts[i], '{')
  }

  /**
   * The loop body of UnmarshalJSON over the tokens after the opening brace.
   * `{` is an error at its offset; `}` decrements the depth; other
   * delimiters are skipped. At depth 0 any other token is a key: it is
   * decoded for key type `kt` (an error returns at once), then Decode reads
   * the next value, whose error is dropped (a value token is consumed and
   * decoded; otherwise nothing is consumed and the value is V's zero), and
   * the pair is stored. Tokens at other depths are skipped.
   */
  function Walk<V>(c: Codec<V>, kt: KeyType, ts: seq<Token>, depth: int, m: Entries<Key, V>): (r: Walked<V>)
    ensures depth - CloseCount(ts) <= r.depth <= depth
    ensures r.stop.None? ==> r.depth == depth - CloseCount(ts)
    decreases |ts|
  {
    if |ts| == 0 then Walked(m, depth, None)
    else
      var t := ts[0];
      if t.Delim? then
        if t.d == '{' then Walked(m, depth, Some(Syntax(t.offset, NestedMsg)))
        else Walk(c, kt, ts[1..], if t.d == '}' then depth - 1 else depth, m)
      else if depth != 0 then Walk(c, kt, ts[1..], depth, m)
      else
        match DecodeKey(c, kt, KeyToken(t))
        case Err(e) => Walked(m, depth, Some(e))
        case Ok(k) =>
          var rest := ts[1..];
          if |rest| > 0 && rest[0].Val? then
            assert CloseCount(ts) == CloseCount(rest) == CloseCount(rest[1..]);
            Walk(c, kt, rest[1..], depth, Store(m, k, c.decodeValue(rest[0].raw)))
          else
            Walk(c, kt, rest, depth, Store(m, k, c.zero))
  }

  /** The end of the loop: a stop error, a tokenizer error, or the closing-brace check at EOF. */
  function Finish<V>(w: Walked<V>, end: End): (r: Outcome<V>)
    ensures r.m == w.m
    ensures r.err.None? <==> w.stop.None? && end.Eof? && w.depth < 0
    ensures w.stop.Some? ==> r.err == w.stop
    ensures w.stop.None? && end.Broken? ==> r.err == Some(end.err)
    ensures w.stop.None? && end.Eof? && w.depth >= 0 ==> r.err == Some(Syntax(end.offset, NotEndMsg))
  {
    if w.stop.Some? then Outcome(w.m, w.stop)
    else
      match end
      case Broken(e) => Outcome(w.m, Some(e))
      case Eof(off) =>
        if w.depth >= 0 then Outcome(w.m, Some(Syntax(off, NotEndMsg)))
        else Outcome(w.m, None)
  }

  /**
   * UnmarshalJSON into the map `m` (which is not cleared first). Empty input
   * is no error; a first token other than `{` is a syntax error at offset 0.
   */
  function Unmarshal<V>(c: Codec<V>, kt: KeyType, s: Stream, m: Entries<Key, V>): (r: Outcome<V>)
    ensures |s.tokens| == 0 || !IsDelim(s.tokens[0], '{') ==> r.m == m
    ensures s.end.Broken? ==> r.err.Some?
    ensures r.err.None? ==> s.end.Eof? && (|s.tokens| == 0 || CloseCount(s.tokens) > 0)
  {
    if |s.tokens| == 0 then
      match s.end
      case Eof(_) => Outcome(m, None)
      case Broken(e) => Outcome(m, Some(e))
    else if IsDelim(s.tokens[0], '{') then Finish(Walk(c, kt, s.tokens[1..], 0, m), s.end)
    else Outcome(m, Some(Syntax(0, NotStartMsg)))
  }

  /** Input that is at end-of-stream at once decodes without error and stores nothing. */
  lemma UnmarshalEmptyInput<V>(c: Codec<V>, kt: KeyType, off: int, m: Entries<Key, V>)
    ensures Unmarshal(c, kt, Stream([], Eof(off)), m) == Outcome(m, None)
  {
  }

  /** A first token that is not the `{` delimiter is a syntax error at offset 0, and nothing is stored. */
  lemma UnmarshalNeedsOpenBrace<V>(c: Codec<V>, kt: KeyType, s: Stream, m: Entries<Key, V>)
    requires |s.tokens| > 0 && !IsDelim(s.tokens[0], '{')
    ensures Unmarshal(c, kt, s, m) == Outcome(m, Some(Syntax(0, NotStartMsg)))
  {
  }

  /**
   * Running the tokens in two parts is running them at once, provided the
   * second part does not start with a value token (which a key at the end of
   * the first part would have consumed).
   */
  lemma {:induction false} WalkAppend<V>(c: Codec<V>, kt: KeyType, pre: seq<Token>, post: seq<Token>,
                                         depth: int, m: Entries<Key, V>)
    requires |post| > 0 ==> !post[0].Val?
    ensures Walk(c, kt, pre + post, depth, m) ==
            (var w := Walk(c, kt, pre, depth, m);
             if w.stop.Some? then w else Walk(c, kt, post, w.depth, w.m))
    decreases |pre|
  {
    if |pre| == 0 {
      assert pre + post == post;
    } else {
      var ts := pre + post;
      assert ts[0] == pre[0];
      assert ts[1..] == pre[1..] + post;
      var t := pre[0];
      if t.Delim? {
        if t.d != '{' {
          WalkAppend(c, kt, pre[1..], post, if t.d == '}' then depth - 1 else depth, m);
        }
      } else if depth != 0 {
        WalkAppend(c, kt, pre[1..], post, depth, m);
      } else if DecodeKey(c, kt, KeyToken(t)).Ok? {
        var k := DecodeKey(c, kt, KeyToken(t)).value;
        if |pre| > 1 && pre[1].Val? {
          assert ts[1] == pre[1];
          assert ts[2..] == pre[2..] + post;
          WalkAppend(c, kt, pre[2..], post, depth, Store(m, k, c.decodeValue(pre[1].raw)));
        } else {
          WalkAppend(c, kt, pre[1..], post, depth, Store(m, k, c.zero));
        }
      }
    }
  }

  /** A run that raised nothing read no `{`. */
  lemma {:induction false} WalkClean<V>(c: Codec<V>, kt: KeyType, ts: seq<Token>, depth: int, m: Entries<Key, V>)
    requires Walk(c, kt, ts, depth, m).stop.None?
    ensures !HasOpenBrace(ts)
    decreases |ts|
  {
    if |ts| > 0 {
      var t := ts[0];
      assert forall i :: 0 < i < |ts| ==> ts[i] == ts[1..][i - 1];
      if t.Delim? {
        WalkClean(c, kt, ts[1..], if t.d == '}' then depth - 1 else depth, m);
      } else if depth != 0 {
        WalkClean(c, kt, ts[1..], depth, m);
      } else {
        var k := DecodeKey(c, kt, KeyToken(t)).value;
        var rest := ts[1..];
        if |rest| > 0 && rest[0].Val? {
          assert forall i :: 1 < i < |ts| ==> ts[i] == rest[1..][i - 2];
          assert rest[1..] == ts[2..];
          WalkClean(c, kt, rest[1..], depth, Store(m, k, c.decodeValue(rest[0].raw)));
        } else {
          WalkClean(c, kt, rest, depth, Store(m, k, c.zero));
        }
      }
    }
  }

  /**
   * The closing-brace rule: a decode succeeds exactly when the input is
   * empty, or it opens with `{`, the loop raised nothing, the stream ended at
   * EOF, and at least one `}` was read (so the depth fell below 0).
   */
  lemma UnmarshalSucceedsIff<V>(c: Codec<V>, kt: KeyType, s: Stream, m: Entries<Key, V>)
    ensures Unmarshal(c, kt, s, m).err.None? <==>
            if |s.tokens| == 0 then s.end.Eof?
            else IsDelim(s.tokens[0], '{') && Walk(c, kt, s.tokens[1..], 0, m).stop.None? &&
                 s.end.Eof? && CloseCount(s.tokens[1..]) > 0
  {
    // follows from the contracts of Unmarshal, Walk and Finish
  }

  /** Every `{` after the opening one makes the decode fail. */
  lemma NestedBraceFails<V>(c: Codec<V>, kt: KeyType, s: Stream, m: Entries<Key, V>)
    requires |s.tokens| > 0 && HasOpenBrace(s.tokens[1..])
    ensures Unmarshal(c, kt, s, m).err.Some?
  {
    if IsDelim(s.tokens[0], '{') && Walk(c, kt, s.tokens[1..], 0, m).stop.None? {
      WalkClean(c, kt, s.tokens[1..], 0, m);
    }
  }

  /**
   * The first `{` after the opening one, reached with no earlier error, is a
   * syntax error at that token's offset, and the map holds what the tokens
   * before it stored.
   */
  lemma NestedBraceReportsItsOffset<V>(c: Codec<V>, kt: KeyType, open: int, pre: seq<Token>, off: int,
                                       post: seq<Token>, end: End, m: Entries<Key, V>)
    requires Walk(c, kt, pre, 0, m).stop.None?
    ensures Unmarshal(c, kt, Stream([Delim('{', open)] + pre + [Delim('{', off)] + post, end), m) ==
            Outcome(Walk(c, kt, pre, 0, m).m, Some(Syntax(off, NestedMsg)))
  {
    var ts := [Delim('{', open)] + pre + [Delim('{', off)] + post;
    SplitAfterOpen(Delim('{', open), pre, Delim('{', off), post);
    WalkAppend(c, kt, pre, [Delim('{', off)] + post, 0, m);
    UnmarshalOpened(c, kt, Stream(ts, end), m);
  }

  /**
   * A key token reached at depth 0 that fails to decode (a parse error, an
   * unsupported key type, a non-string token) ends the decode with that
   * error before anything is stored for it: only the earlier pairs remain.
   */
  lemma KeyFailureKeepsEarlierPairs<V>(c: Codec<V>, kt: KeyType, open: int, pre: seq<Token>, t: Token,
                                       post: seq<Token>, end: End, m: Entries<Key, V>)
    requires Walk(c, kt, pre, 0, m).stop.None? && Walk(c, kt, pre, 0, m).depth == 0
    requires t.Text? && DecodeKey(c, kt, KeyToken(t)).Err?
    ensures Unmarshal(c, kt, Stream([Delim('{', open)] + pre + [t] + post, end), m) ==
            Outcome(Walk(c, kt, pre, 0, m).m, Some(DecodeKey(c, kt, KeyToken(t)).error))
  {
    var ts := [Delim('{', open)] + pre + [t] + post;
    var rest := [t] + post;
    var w := Walk(c, kt, pre, 0, m);
    var e := DecodeKey(c, kt, KeyToken(t)).error;
    assert Walk(c, kt, ts[1..], 0, m) == Walked(w.m, 0, Some(e)) by {
      SplitAfterOpen(Delim('{', open), pre, t, post);
      WalkAppend(c, kt, pre, rest, 0, m);
      WalkKeyFails(c, kt, rest, w.m);
    }
    UnmarshalOpened(c, kt, Stream(ts, end), m);
  }

  /** Dropping the opening token of `{ pre t post` leaves `pre` followed by `t post`. */
  lemma SplitAfterOpen(d: Token, pre: seq<Token>, t: Token, post: seq<Token>)
    ensures ([d] + pre + [t] + post)[1..] == pre + ([t] + post)
  {
    assert [d] + pre + [t] + post == [d] + (pre + ([t] + post));
  }

  /** A key token at depth 0 that fails to decode stops the run at once with its error. */
  lemma WalkKeyFails<V>(c: Codec<V>, kt: KeyType, ts: seq<Token>, m: Entries<Key, V>)
    requires |ts| > 0 && !ts[0].Delim? && DecodeKey(c, kt, KeyToken(ts[0])).Err?
    ensures Walk(c, kt, ts, 0, m) == Walked(m, 0, Some(DecodeKey(c, kt, KeyToken(ts[0])).error))
  {
  }

  /** Input that opens with `{` is the loop over the remaining tokens, then the end-of-input rule. */
  lemma UnmarshalOpened<V>(c: Codec<V>, kt: KeyType, s: Stream, m: Entries<Key, V>)
    requires |s.tokens| > 0 && IsDelim(s.tokens[0], '{')
    ensures Unmarshal(c, kt, s, m) == Finish(Walk(c, kt, s.tokens[1..], 0, m), s.end)
  {
  }

  /**
   * Every token the loop reads in key position (a non-delimiter at depth 0)
   * decodes as a key of type `kt`. The walk is the loop's, without the map:
   * after a key, a value token is skipped with it.
   */
  predicate KeysDecode<V>(c: Codec<V>, kt: KeyType, ts: seq<Token>, depth: int)
    decreases |ts|
  {
    if |ts| == 0 then true
    else if ts[0].Delim? then KeysDecode(c, kt, ts[1..], if ts[0].d == '}' then depth - 1 else depth)
    else if depth != 0 then KeysDecode(c, kt, ts[1..], depth)
    else DecodeKey(c, kt, KeyToken(ts[0])).Ok? &&
         if |ts| > 1 && ts[1].Val? then KeysDecode(c, kt, ts[2..], depth) else KeysDecode(c, kt, ts[1..], depth)
  }

  lemma HasOpenBraceCons(ts: seq<Token>)
    requires |ts| > 0
    ensures HasOpenBrace(ts) <==> IsDelim(ts[0], '{') || HasOpenBrace(ts[1..])
  {
    if HasOpenBrace(ts[1..]) {
      var i :| 0 <= i < |ts[1..]| && IsDelim(ts[1..][i], '{');
      assert IsDelim(ts[i + 1], '{');
    }
    if HasOpenBrace(ts) && !IsDelim(ts[0], '{') {
      var i :| 0 <= i < |ts| && IsDelim(ts[i], '{');
      assert ts[1..][i - 1] == ts[i];
    }
  }

  /**
   * The loop raises nothing exactly when no `{` follows the opening one and
   * every token it reads in key position decodes as a key.
   */
  lemma {:induction false} WalkRaisesNothingIff<V>(c: Codec<V>, kt: KeyType, ts: seq<Token>, depth: int, m: Entries<Key, V>)
    ensures Walk(c, kt, ts, depth, m).stop.None? <==> !HasOpenBrace(ts) && KeysDecode(c, kt, ts, depth)
    decreases |ts|
  {
    if |ts| > 0 {
      HasOpenBraceCons(ts);
      var t := ts[0];
      if t.Delim? {
        WalkRaisesNothingIff(c, kt, ts[1..], if t.d == '}' then depth - 1 else depth, m);
      } else if depth != 0 {
        WalkRaisesNothingIff(c, kt, ts[1..], depth, m);
      } else if DecodeKey(c, kt, KeyToken(t)).Ok? {
        var k := DecodeKey(c, kt, KeyToken(t)).value;
        var rest := ts[1..];
        if |rest| > 0 && rest[0].Val? {
          assert rest[1..] == ts[2..];
          HasOpenBraceCons(rest);
          WalkRaisesNothingIff(c, kt, rest[1..], depth, Store(m, k, c.decodeValue(rest[0].raw)));
        } else {
          WalkRaisesNothingIff(c, kt, rest, depth, Store(m, k, c.zero));
        }
      }
    }
  }

  /**
   * Once the depth is below 0, the loop skips every token: without a `{` it
   * stores nothing, raises nothing, and only counts the `}` it reads.
   */
  lemma {:induction false} WalkSkipsBelowZero<V>(c: Codec<V>, kt: KeyType, ts: seq<Token>, depth: int, m: Entries<Key, V>)
    requires depth < 0 && !HasOpenBrace(ts)
    ensures Walk(c, kt, ts, depth, m) == Walked(m, depth - CloseCount(ts), None)
    decreases |ts|
  {
    if |ts| > 0 {
      HasOpenBraceCons(ts);
      WalkSkipsBelowZero(c, kt, ts[1..], if IsDelim(ts[0], '}') then depth - 1 else depth, m);
    }
  }

  /** Decoding keeps the map's keys unique. */
  lemma {:induction false} WalkKeepsUniqueKeys<V>(c: Codec<V>, kt: KeyType, ts: seq<Token>, depth: int, m: Entries<Key, V>)
    requires UniqueKeys(m)
    ensures UniqueKeys(Walk(c, kt, ts, depth, m).m)
    decreases |ts|
  {
    if |ts| > 0 {
      var t := ts[0];
      if t.Delim? {
        if t.d != '{' {
          WalkKeepsUniqueKeys(c, kt, ts[1..], if t.d == '}' then depth - 1 else depth, m);
        }
      } else if depth != 0 {
        WalkKeepsUniqueKeys(c, kt, ts[1..], depth, m);
      } else if DecodeKey(c, kt, KeyToken(t)).Ok? {
        var k := DecodeKey(c, kt, KeyToken(t)).value;
        var rest := ts[1..];
        if |rest| > 0 && rest[0].Val? {
          StoreKeepsUniqueKeys(m, k, c.decodeValue(rest[0].raw));
          WalkKeepsUniqueKeys(c, kt, rest[1..], depth, Store(m, k, c.decodeValue(rest[0].raw)));
        } else {
          StoreKeepsUniqueKeys(m, k, c.zero);
          WalkKeepsUniqueKeys(c, kt, rest, depth, Store(m, k, c.zero));
        }
      }
    }
  }

  lemma UnmarshalKeepsUniqueKeys<V>(c: Codec<V>, kt: KeyType, s: Stream, m: Entries<Key, V>)
    requires UniqueKeys(m)
    ensures UniqueKeys(Unmarshal(c, kt, s, m).m)
  {
    if |s.tokens| > 0 && IsDelim(s.tokens[0], '{') {
      WalkKeepsUniqueKeys(c, kt, s.tokens[1..], 0, m);
    }
  }
}

=== FILE: encoder.dfy ===
/**
 * MarshalJSON: the ordered map as one flat JSON object, `{`, then each entry
 * as `key:value` in Front/Next order separated by `,`, then `}`.
 */
module Encoder {
  import opened Wrappers
  import opened Errors
  import opened JsonLib
  import opened Keys
  import opened OrderedMap

  /** addJsonValue: json.Marshal of the value, its bytes or its error passed on unchanged. */
  function AddJsonValue<V>(c: Codec<V>, v: V): Result<string, Error> {
    c.marshalValue(v)
  }

  /** One object member: the key fragment and the value fragment. */
  type Member = (string, string)

  /** One entry's member; the key is encoded first, so a key error wins and the value is never marshaled. */
  function EncodeEntry<V>(c: Codec<V>, e: (Key, V)): Result<Member, Error> {
    var kb :- AddJsonKey(c, e.0);
    var vb :- AddJsonValue(c, e.1);
    Ok((kb, vb))
  }

  /**
   * The members of all entries in order, or the error of the first entry
   * that fails; nothing after that entry is encoded.
   */
  function EncodeEntries<V>(c: Codec<V>, es: Entries<Key, V>): (r: Result<seq<Member>, Error>)
    ensures r.Ok? <==> forall i :: 0 <= i < |es| ==> EncodeEntry(c, es[i]).Ok?
    ensures r.Ok? ==> |r.value| == |es| && forall i :: 0 <= i < |es| ==> EncodeEntry(c, es[i]) == Ok(r.value[i])
    ensures r.Err? ==> exists i :: 0 <= i < |es| && EncodeEntry(c, es[i]) == Err(r.error) &&
                                   forall j :: 0 <= j < i ==> EncodeEntry(c, es[j]).Ok?
    decreases |es|
  {
    if |es| == 0 then Ok([])
    else
      match EncodeEntry(c, es[0])
      case Err(e) => Err(e)
      case Ok(m) =>
        var rest := EncodeEntries(c, es[1..]);
        assert forall i :: 0 < i < |es| ==> es[i] == es[1..][i - 1];
        if rest.Err? then
          var i :| 0 <= i < |es[1..]| && EncodeEntry(c, es[1..][i]) == Err(rest.error) &&
                   forall j :: 0 <= j < i ==> EncodeEntry(c, es[1..][j]).Ok?;
          assert EncodeEntry(c, es[i + 1]) == Err(rest.error);
          Err(rest.error)
        else
          Ok([m] + rest.value)
  }

  function MemberText(m: Member): string {
    m.0 + ":" + m.1
  }

  /** The members' texts separated by commas. */
  function JoinMembers(ms: seq<Member>): string {
    if |ms| == 0 then ""
    else if |ms| == 1 then MemberText(ms[0])
    else MemberText(ms[0]) + "," + JoinMembers(ms[1..])
  }

  function ObjectText(ms: seq<Member>): string {
    "{" + JoinMembers(ms) + "}"
  }

  /** The whole encoding: the object text, or the first failing entry's error and no bytes. */
  function Marshal<V>(c: Codec<V>, es: Entries<Key, V>): (r: Result<string, Error>)
    ensures r.Ok? <==> forall i :: 0 <= i < |es| ==> EncodeEntry(c, es[i]).Ok?
    ensures r.Ok? ==> |r.value| >= 2 && r.value[0] == '{' && r.value[|r.value| - 1] == '}'
    ensures r.Err? ==> exists i :: 0 <= i < |es| && EncodeEntry(c, es[i]) == Err(r.error) &&
                                   forall j :: 0 <= j < i ==> EncodeEntry(c, es[j]).Ok?
  {
    match EncodeEntries(c, es)
    case Err(e) => Err(e)
    case Ok(ms) => Ok(ObjectText(ms))
  }

  /** An empty map encodes to exactly `{}`. */
  lemma MarshalEmpty<V>(c: Codec<V>)
    ensures Marshal(c, []) == Ok("{}")
  {
    assert ObjectText([]) == "{}";
  }

  /**
   * An int key 7 whose value marshals to `"x"`: the key's number text is
   * wrapped in quotes, so the object is `{"7":"x"}`.
   */
  lemma IntKeyExample<V>(c: Codec<V>, v: V)
    requires c.marshalScalar(Int, "7") == Ok("7")
    requires c.marshalValue(v) == Ok("\"x\"")
    ensures Marshal(c, [(Scalar(Int, "7"), v)]) == Ok("{\"7\":\"x\"}")
  {
    var es := [(Scalar(Int, "7"), v)];
    var m := ("\"7\"", "\"x\"");
    assert Wrap("7") == m.0;
    assert AddJsonKey(c, es[0].0) == Ok(m.0);
    assert EncodeEntry(c, es[0]) == Ok(m);
    assert EncodeEntries(c, es[1..]) == Ok([]) by { assert es[1..] == []; }
    assert [m] + [] == [m];
    assert EncodeEntries(c, es) == Ok([m]);
    assert JoinMembers([m]) == MemberText(m);
    assert ObjectText([m]) == "{\"7\":\"x\"}";
  }

  /**
   * Encoding fails exactly when some entry fails, and then with the error of
   * the first failing entry (its key's error if the key fails).
   */
  lemma MarshalFailsAtFirstBadEntry<V>(c: Codec<V>, es: Entries<Key, V>, i: nat)
    requires i < |es|
    requires forall j :: 0 <= j < i ==> EncodeEntry(c, es[j]).Ok?
    requires EncodeEntry(c, es[i]).Err?
    ensures AddJsonKey(c, es[i].0).Err? ==> Marshal(c, es) == Err(AddJsonKey(c, es[i].0).error)
    ensures AddJsonKey(c, es[i].0).Ok? ==> Marshal(c, es) == Err(AddJsonValue(c, es[i].1).error)
  {
    var r := Marshal(c, es);
    var i' :| 0 <= i' < |es| && EncodeEntry(c, es[i']) == Err(r.error) &&
              forall j :: 0 <= j < i' ==> EncodeEntry(c, es[j]).Ok?;
    assert i' >= i;
    assert i' <= i;
  }

  /** Appending a member to a non-empty list adds `,` and its text at the end. */
  lemma {:induction false} JoinMembersSnoc(ms: seq<Member>, m: Member)
    requires |ms| > 0
    ensures JoinMembers(ms + [m]) == JoinMembers(ms) + "," + MemberText(m)
    decreases |ms|
  {
    if |ms| > 1 {
      assert (ms + [m])[1..] == ms[1..] + [m];
      JoinMembersSnoc(ms[1..], m);
    } else {
      assert ms + [m] == [ms[0], m];
      assert (ms + [m])[1..] == [m];
    }
  }

  lemma EncodeEntriesExtend<V>(c: Codec<V>, es: Entries<Key, V>, i: nat)
    requires i < |es|
    requires EncodeEntries(c, es[..i]).Ok? && EncodeEntry(c, es[i]).Ok?
    ensures EncodeEntries(c, es[..i + 1]) == Ok(EncodeEntries(c, es[..i]).value + [EncodeEntry(c, es[i]).value])
  {
    var pre := EncodeEntries(c, es[..i]).value;
    assert forall j :: 0 <= j < i ==> es[..i][j] == es[j] == es[..i + 1][j];
    PrefixOk(c, es, i);
    var all := EncodeEntries(c, es[..i + 1]).value;
    assert all == pre + [EncodeEntry(c, es[i]).value];
  }

  lemma PrefixOk<V>(c: Codec<V>, es: Entries<Key, V>, i: nat)
    requires i <= |es|
    requires EncodeEntries(c, es[..i]).Ok?
    ensures forall j :: 0 <= j < i ==> EncodeEntry(c, es[j]).Ok?
  {
    assert forall j :: 0 <= j < i ==> es[..i][j] == es[j];
  }

  /** Writing `,key:value` for entry `i` keeps the buffer equal to the object text so far. */
  lemma AppendMember<V>(c: Codec<V>, es: Entries<Key, V>, i: nat, buf: string, kb: string, vb: string)
    requires 0 < i < |es|
    requires EncodeEntries(c, es[..i]).Ok?
    requires buf == "{" + JoinMembers(EncodeEntries(c, es[..i]).value)
    requires AddJsonKey(c, es[i].0) == Ok(kb) && AddJsonValue(c, es[i].1) == Ok(vb)
    ensures EncodeEntries(c, es[..i + 1]).Ok?
    ensures buf + "," + kb + ":" + vb == "{" + JoinMembers(EncodeEntries(c, es[..i + 1]).value)
  {
    var pre := EncodeEntries(c, es[..i]).value;
    assert EncodeEntry(c, es[i]) == Ok((kb, vb));
    EncodeEntriesExtend(c, es, i);
    assert EncodeEntries(c, es[..i + 1]).value == pre + [(kb, vb)];
    JoinMembersSnoc(pre, (kb, vb));
    assert buf + "," + kb + ":" + vb == "{" + (JoinMembers(pre) + "," + MemberText((kb, vb)));
  }

  /** The first entry's `key:value` is the object text of a one-entry prefix. */
  lemma FirstMember<V>(c: Codec<V>, es: Entries<Key, V>, kb: string, vb: string)
    requires 0 < |es|
    requires AddJsonKey(c, es[0].0) == Ok(kb) && AddJsonValue(c, es[0].1) == Ok(vb)
    ensures EncodeEntries(c, es[..1]).Ok?
    ensures "{" + kb + ":" + vb == "{" + JoinMembers(EncodeEntries(c, es[..1]).value)
  {
    EncodeEntriesExtend(c, es, 0);
    assert EncodeEntries(c, es[..1]).value == [(kb, vb)];
  }

  /**
   * MarshalJSON as the source writes it: `{`, the first entry's key, `:` and
   * value, then `,` before each later entry, and `}`; it returns at the first
   * key or value error without the buffer. Its result is the object text of
   * all members in order, or the first failing entry's error.
   */
  method MarshalJSON<V>(c: Codec<V>, es: Entries<Key, V>) returns (r: Result<string, Error>)
    ensures r == Marshal(c, es)
  {
    var buf := "{";
    if |es| > 0 {
      var key := AddJsonKey(c, es[0].0);
      if key.Err? {
        MarshalFailsAtFirstBadEntry(c, es, 0);
        return Err(key.error);
      }
      buf := buf + key.value + ":";
      var val := AddJsonValue(c, es[0].1);
      if val.Err? {
        MarshalFailsAtFirstBadEntry(c, es, 0);
        return Err(val.error);
      }
      FirstMember(c, es, key.value, val.value);
      buf := buf + val.value;
      var i := 1;
      while i < |es|
        invariant 1 <= i <= |es|
        invariant EncodeEntries(c, es[..i]).Ok?
        invariant buf == "{" + JoinMembers(EncodeEntries(c, es[..i]).value)
      {
        PrefixOk(c, es, i);
        ghost var before := buf;
        buf := buf + ",";
        key := AddJsonKey(c, es[i].0);
        if key.Err? {
          MarshalFailsAtFirstBadEntry(c, es, i);
          return Err(key.error);
        }
        buf := buf + key.value + ":";
        val := AddJsonValue(c, es[i].1);
        if val.Err? {
          MarshalFailsAtFirstBadEntry(c, es, i);
          return Err(val.error);
        }
        AppendMember(c, es, i, before, key.value, val.value);
        buf := buf + val.value;
        i := i + 1;
      }
      assert es[..i] == es;
      assert buf == "{" + JoinMembers(EncodeEntries(c, es).value);
    } else {
      MarshalEmpty(c);
      assert es == [];
    }
    buf := buf + "}";
    r := Ok(buf);
    assert |es| > 0 ==> EncodeEntries(c, es).Ok? && buf == ObjectText(EncodeEntries(c, es).value);
    assert |es| == 0 ==> buf == "{}";
  }
}

=== FILE: errors.dfy ===
/** The errors the codec returns, and the text their `Error()` methods produce. */
module Errors {
  import opened Wrappers

  /** Every way an encode or decode call can end without success. */
  datatype Error =
    /** UnsupportedKeyTypeError; `None` stands for a nil reflect.Type (a nil interface key). */
    | UnsupportedKeyType(typeName: Option<string>)
    /** SyntaxError: a byte offset into the input and a message. */
    | Syntax(offset: int, msg: string)
    /** An error returned by encoding/json (marshaling, parsing, tokenizing), passed through unchanged. */
    | Library(detail: string)
    /** A failed Go type assertion on a token that is not a string: a run-time panic. */
    | Panic

  const NotStartMsg: string := "The input JSON does not start with '{'"
  const NotEndMsg: string := "The input JSON does not end with '}'"
  const NestedMsg: string := "Invalid character '{'"

  const UnsupportedPrefix: string := "json: unsupported key type: "
  const OffsetOpen: string := " (offset:"

  predicate IsDigits(s: string) {
    forall i :: 0 <= i < |s| ==> '0' <= s[i] <= '9'
  }

  function DigitChar(d: nat): (c: char)
    requires d < 10
    ensures '0' <= c <= '9' && c as int - '0' as int == d
  {
    ('0' as int + d) as char
  }

  /** The value of a run of decimal digits, read from the last digit back. */
  function ParseNat(s: string): nat
    requires IsDigits(s)
  {
    if |s| == 0 then 0
    else ParseNat(s[..|s| - 1]) * 10 + (s[|s| - 1] as int - '0' as int)
  }

  /** Decimal digits of `n`, as strconv.FormatInt writes a non-negative number. */
  function FormatNat(n: nat): (r: string)
    ensures |r| >= 1 && IsDigits(r)
    ensures r[0] == '0' ==> r == "0"
    ensures n > 0 ==> r[0] != '0'
    ensures ParseNat(r) == n
  {
    if n < 10 then [DigitChar(n)]
    else
      var r := FormatNat(n / 10) + [DigitChar(n % 10)];
      assert r[..|r| - 1] == FormatNat(n / 10);
      r
  }

  /** Reads back what FormatInt writes: an optional '-' and then digits. */
  function ParseInt(s: string): Option<int> {
    if |s| > 1 && s[0] == '-' && IsDigits(s[1..]) then Some(-(ParseNat(s[1..]) as int))
    else if |s| > 0 && IsDigits(s) then Some(ParseNat(s))
    else None
  }

  /**
   * Decimal text as strconv.FormatInt writes it: an optional '-', then
   * digits with no leading zero ("0" aside), and never "-0".
   */
  predicate Canonical(s: string) {
    if |s| > 0 && s[0] == '-' then |s| > 1 && IsDigits(s[1..]) && s[1] != '0'
    else |s| > 0 && IsDigits(s) && (s[0] == '0' ==> s == "0")
  }

  /** strconv.FormatInt(n, 10). */
  function FormatInt(n: int): (r: string)
    ensures Canonical(r)
    ensures ParseInt(r) == Some(n)
    ensures r[0] == '-' <==> n < 0
  {
    if n < 0 then
      var r := "-" + FormatNat(-n);
      assert r[1..] == FormatNat(-n);
      r
    else FormatNat(n)
  }

  /** Digits whose first is not '0' have a positive value. */
  lemma {:induction false} ParseNatPositive(s: string)
    requires |s| > 0 && IsDigits(s) && s[0] != '0'
    ensures ParseNat(s) >= 1
    decreases |s|
  {
    if |s| > 1 {
      ParseNatPositive(s[..|s| - 1]);
    }
  }

  /** Digits without a leading zero are the only decimal text of their value. */
  lemma {:induction false} FormatNatUnique(s: string)
    requires |s| > 0 && IsDigits(s) && (s[0] == '0' ==> s == "0")
    ensures s == FormatNat(ParseNat(s))
    decreases |s|
  {
    var p := s[..|s| - 1];
    var d := s[|s| - 1] as int - '0' as int;
    if |s| == 1 {
      assert p == "";
      assert DigitChar(d) == s[0];
    } else {
      assert |s| != |"0"|;
      assert p[0] == s[0];
      FormatNatUnique(p);
      ParseNatPositive(p);
      var n := ParseNat(s);
      assert n == ParseNat(p) * 10 + d;
      assert n / 10 == ParseNat(p) && n % 10 == d;
      assert DigitChar(d) == s[|s| - 1];
      assert s == p + [s[|s| - 1]];
    }
  }

  /** Canonical decimal text is exactly what FormatInt writes for the value it reads back as. */
  lemma FormatIntUnique(s: string)
    requires Canonical(s)
    ensures ParseInt(s).Some? && s == FormatInt(ParseInt(s).value)
  {
    if s[0] == '-' {
      var t := s[1..];
      assert t[0] == s[1];
      FormatNatUnique(t);
      ParseNatPositive(t);
      assert s == "-" + t;
    } else {
      FormatNatUnique(s);
    }
  }

  /** UnsupportedKeyTypeError.Error(): the type's name, or "any" for a nil type. */
  function UnsupportedKeyTypeText(typeName: Option<string>): (r: string)
    ensures |r| >= |UnsupportedPrefix| && r[..|UnsupportedPrefix|] == UnsupportedPrefix
    ensures typeName.Some? ==> r[|UnsupportedPrefix|..] == typeName.value
    ensures typeName.None? ==> r[|UnsupportedPrefix|..] == "any"
  {
    match typeName
    case None => UnsupportedPrefix + "any"
    case Some(t) => UnsupportedPrefix + t
  }

  /** SyntaxError.Error(): the message, then the offset in decimal; the offset can be read back. */
  function SyntaxText(offset: int, msg: string): (r: string)
    ensures |r| > |msg| + |OffsetOpen| && r[..|msg|] == msg
    ensures r[|msg|..|msg| + |OffsetOpen|] == OffsetOpen && r[|r| - 1] == ')'
    ensures r[|msg| + |OffsetOpen|..|r| - 1] == FormatInt(offset)
    ensures ParseInt(r[|msg| + |OffsetOpen|..|r| - 1]) == Some(offset)
  {
    var digits := FormatInt(offset);
    var r := msg + OffsetOpen + digits + ")";
    assert r[|msg| + |OffsetOpen|..|r| - 1] == digits;
    r
  }
}

=== FILE: json_lib.dfy ===
/**
 * The parts of Go's encoding/json the codec calls, taken as parameters.
 * The library's own encoding, tokenizing and number formatting are not part
 * of this model; `Lawful` states the few facts about them the round trip
 * depends on.
 */
module JsonLib {
  import opened Wrappers
  import opened Errors

  /** The Go primitive types a key may have, directly or behind a pointer. */
  datatype ScalarKind =
    | Bool
    | Int | Int8 | Int16 | Int32 | Int64
    | Uint | Uint8 | Uint16 | Uint32 | Uint64
    | Float32 | Float64

  /** Surround bytes with a leading and a trailing double quote. */
  function Wrap(s: string): (r: string)
    ensures |r| == |s| + 2 && r[0] == '"' && r[|r| - 1] == '"' && r[1..|r| - 1] == s
  {
    "\"" + s + "\""
  }

  /**
   * The library, for a map whose values have type V.
   * - quote: json.Marshal of a Go string (a JSON string literal).
   * - unquote: the Go string a json.Decoder token yields for a string literal.
   * - marshalScalar: json.Marshal of a primitive given by its kind and value;
   *   the value is opaque text here. It fails for values JSON cannot express.
   * - parseScalar: json.Unmarshal of text into a primitive of that kind.
   * - marshalValue: json.Marshal of a value.
   * - decodeValue: what Decoder.Decode leaves in a V for one JSON value;
   *   the error it may return is dropped by the codec, so only the value is kept.
   * - zero: the zero value of V.
   */
  datatype Codec<!V> = Codec(
    quote: string -> string,
    unquote: string -> string,
    marshalScalar: (ScalarKind, string) -> Result<string, Error>,
    parseScalar: (ScalarKind, string) -> Result<string, Error>,
    marshalValue: V -> Result<string, Error>,
    decodeValue: string -> V,
    zero: V)

  /** What json.Marshal writes for a nil pointer. */
  const NullLiteral: string := "null"

  /**
   * The facts of encoding/json the round trip rests on: a marshaled string
   * reads back as itself; the string "null" marshals to the four letters
   * in quotes; a marshaled primitive reads back unchanged from inside an
   * extra pair of quotes, and it parses back to the same value.
   */
  ghost predicate Lawful<V>(c: Codec<V>) {
    && (forall s :: c.unquote(c.quote(s)) == s)
    && c.quote(NullLiteral) == Wrap(NullLiteral)
    && (forall k, t :: c.marshalScalar(k, t).Ok? ==> ScalarReadsBack(c, k, t))
  }

  ghost predicate ScalarReadsBack<V>(c: Codec<V>, k: ScalarKind, t: string)
    requires c.marshalScalar(k, t).Ok?
  {
    var m := c.marshalScalar(k, t).value;
    c.unquote(Wrap(m)) == m && c.parseScalar(k, m) == Ok(t)
  }

  /** A value that marshals, and that Decode turns back into the same value. */
  ghost predicate ValueReadsBack<V>(c: Codec<V>, v: V) {
    c.marshalValue(v).Ok? && c.decodeValue(c.marshalValue(v).value) == v
  }
}

=== FILE: keys.dfy ===
/**
 * The key codec: how addJsonKey turns a key into an object-key fragment, and
 * how the decoder turns a key token back into a key of the map's key type.
 */
module Keys {
  import opened Wrappers
  import opened Errors
  import opened JsonLib

  /**
   * A key, classified by its Go run-time type. Pointers are modelled by the
   * value they point to (`None` for nil), not by their address.
   */
  datatype Key =
    | Str(s: string)
    | PtrStr(target: Option<string>)
    | Scalar(kind: ScalarKind, repr: string)
    | PtrScalar(kind: ScalarKind, pointee: Option<string>)
    /** Any other type: maps, slices, structs, named types; `None` is a nil interface. */
    | Unsupported(typeName: Option<string>)

  /** The key type K a map is decoded into, classified the same way. */
  datatype KeyType =
    | StrType
    | PtrStrType
    | ScalarType(kind: ScalarKind)
    | PtrScalarType(kind: ScalarKind)
    | UnsupportedType(typeName: Option<string>)

  function TypeOf(k: Key): KeyType {
    match k
    case Str(_) => StrType
    case PtrStr(_) => PtrStrType
    case Scalar(kind, _) => ScalarType(kind)
    case PtrScalar(kind, _) => PtrScalarType(kind)
    case Unsupported(n) => UnsupportedType(n)
  }

  /** json.Marshal of a key of a supported type; a nil pointer marshals to `null`. */
  function MarshalKey<V>(c: Codec<V>, k: Key): Result<string, Error>
    requires !k.Unsupported?
  {
    match k
    case Str(s) => Ok(c.quote(s))
    case PtrStr(p) => if p.Some? then Ok(c.quote(p.value)) else Ok(NullLiteral)
    case Scalar(kind, t) => c.marshalScalar(kind, t)
    case PtrScalar(kind, p) => if p.Some? then c.marshalScalar(kind, p.value) else Ok(NullLiteral)
  }

  /** The `quote` flag of addJsonKey: every supported key but a string or a non-nil *string. */
  predicate ExtraQuotes(k: Key) {
    match k
    case Str(_) => false
    case PtrStr(p) => p.None?
    case Unsupported(_) => false
    case _ => true
  }

  /**
   * The object-key name a JSON reader sees for a key: the string itself for a
   * string or non-nil *string key, and the marshaled text for every other key.
   */
  function KeyName<V>(c: Codec<V>, k: Key): string
    requires !k.Unsupported? && MarshalKey(c, k).Ok?
  {
    match k
    case Str(s) => s
    case PtrStr(p) => if p.Some? then p.value else MarshalKey(c, k).value
    case _ => MarshalKey(c, k).value
  }

  /**
   * addJsonKey: the object-key fragment for `k`. An unsupported key fails
   * before anything is marshaled; a marshal failure is passed on; otherwise
   * the fragment is a JSON string whose content is the key's name.
   */
  function AddJsonKey<V>(c: Codec<V>, k: Key): (r: Result<string, Error>)
    ensures k.Unsupported? ==> r == Err(UnsupportedKeyType(k.typeName))
    ensures !k.Unsupported? && r.Err? ==> MarshalKey(c, k) == Err(r.error)
    ensures !k.Unsupported? && MarshalKey(c, k).Ok? ==> r.Ok?
    ensures r.Ok? ==> !k.Unsupported? && MarshalKey(c, k).Ok?
    ensures k.Str? || (k.PtrStr? && k.target.Some?) ==> r == MarshalKey(c, k)
    ensures (k.PtrStr? && k.target.None?) || k.Scalar? || k.PtrScalar? ==>
              MarshalKey(c, k).Ok? ==> r == Ok(Wrap(MarshalKey(c, k).value))
    ensures r.Ok? && Lawful(c) ==> c.unquote(r.value) == KeyName(c, k)
  {
    if k.Unsupported? then Err(UnsupportedKeyType(k.typeName))
    else
      var bs :- MarshalKey(c, k);
      if ExtraQuotes(k) then
        assert Lawful(c) ==> c.unquote(Wrap(NullLiteral)) == NullLiteral by {
          if Lawful(c) {
            assert c.unquote(c.quote(NullLiteral)) == NullLiteral;
          }
        }
        assert Lawful(c) && (k.Scalar? || (k.PtrScalar? && k.pointee.Some?)) ==> c.unquote(Wrap(bs)) == bs by {
          if Lawful(c) && k.Scalar? {
            assert ScalarReadsBack(c, k.kind, k.repr);
          } else if Lawful(c) && k.PtrScalar? && k.pointee.Some? {
            assert ScalarReadsBack(c, k.kind, k.pointee.value);
          }
        }
        Ok(Wrap(bs))
      else Ok(bs)
  }

  /**
   * The key the decoder builds from a key token for key type `kt`. `tok` is
   * the token as a Go string, `None` when the token is not a string (the
   * type assertion on it panics).
   */
  function DecodeKey<V>(c: Codec<V>, kt: KeyType, tok: Option<string>): (r: Result<Key, Error>)
    ensures r.Ok? ==> TypeOf(r.value) == kt
    ensures kt.UnsupportedType? ==> r == Err(UnsupportedKeyType(kt.typeName))
    ensures !kt.UnsupportedType? && tok.None? ==> r == Err(Panic)
    ensures kt == StrType && tok.Some? ==> r == Ok(Str(tok.value))
    ensures kt == PtrStrType && tok == Some(NullLiteral) ==> r == Ok(PtrStr(None))
    ensures kt == PtrStrType && tok.Some? && tok.value != NullLiteral ==> r == Ok(PtrStr(tok))
    ensures (kt.ScalarType? || kt.PtrScalarType?) && tok.Some? ==>
              (r.Ok? <==> c.parseScalar(kt.kind, tok.value).Ok?)
    ensures (kt.ScalarType? || kt.PtrScalarType?) && tok.Some? && c.parseScalar(kt.kind, tok.value).Err? ==>
              r == Err(c.parseScalar(kt.kind, tok.value).error)
    ensures kt.ScalarType? && r.Ok? ==> c.parseScalar(kt.kind, tok.value) == Ok(r.value.repr)
    ensures kt.PtrScalarType? && r.Ok? ==> r.value.pointee.Some? && c.parseScalar(kt.kind, tok.value) == Ok(r.value.pointee.value)
  {
    match kt
    case UnsupportedType(n) => Err(UnsupportedKeyType(n))
    case StrType =>
      if tok.None? then Err(Panic) else Ok(Str(tok.value))
    case PtrStrType =>
      if tok.None? then Err(Panic)
      else if tok.value == NullLiteral then Ok(PtrStr(None))
      else Ok(PtrStr(tok))
    case ScalarType(kind) =>
      if tok.None? then Err(Panic)
      else
        var t :- c.parseScalar(kind, tok.value);
        Ok(Scalar(kind, t))
    case PtrScalarType(kind) =>
      if tok.None? then Err(Panic)
      else
        // the pointee is allocated first, so the decoded pointer is never nil
        var t :- c.parseScalar(kind, tok.value);
        Ok(PtrScalar(kind, Some(t)))
  }

  /**
   * The keys that survive an encode and decode: all of them except a
   * *string pointing at "null" and a nil pointer to a primitive.
   */
  predicate Restorable(k: Key) {
    && !(k.PtrStr? && k.target == Some(NullLiteral))
    && !(k.PtrScalar? && k.pointee.None?)
  }

  /**
   * A key that addJsonKey encodes is decoded back from the name a JSON
   * reader sees exactly when it is restorable.
   */
  lemma KeyRoundTrip<V>(c: Codec<V>, k: Key)
    requires Lawful(c)
    requires AddJsonKey(c, k).Ok?
    ensures DecodeKey(c, TypeOf(k), Some(c.unquote(AddJsonKey(c, k).value))) == Ok(k) <==> Restorable(k)
  {
    // follows from the contracts of AddJsonKey and DecodeKey and the laws in Lawful
  }

  /**
   * A nil *string key and a *string key pointing at "null" are different
   * keys with the same encoding, so they cannot both be told apart on decode.
   */
  lemma NullStringKeysCollide<V>(c: Codec<V>)
    requires Lawful(c)
    ensures AddJsonKey(c, PtrStr(None)) == Ok(Wrap(NullLiteral))
    ensures AddJsonKey(c, PtrStr(Some(NullLiteral))) == Ok(Wrap(NullLiteral))
  {
  }

  /** A nil pointer-to-primitive key encodes, but no key token decodes back to it. */
  lemma NilScalarPointerNeverDecoded<V>(c: Codec<V>, kind: ScalarKind, tok: Option<string>)
    ensures AddJsonKey(c, PtrScalar(kind, None)) == Ok(Wrap(NullLiteral))
    ensures DecodeKey(c, PtrScalarType(kind), tok) != Ok(PtrScalar(kind, None))
  {
  }
}

=== FILE: ordered_map.dfy ===
/**
 * The ordered map the codec reads from and writes into, as its entries in
 * Front/Next order. The map's own linked storage is not part of this model;
 * only the view the codec uses is: iteration in insertion order and `Store`.
 */
module OrderedMap {
  import opened Wrappers

  type Entries<K, V> = seq<(K, V)>

  function KeysOf<K, V>(es: Entries<K, V>): (ks: seq<K>)
    ensures |ks| == |es|
    ensures forall i :: 0 <= i < |es| ==> ks[i] == es[i].0
  {
    if |es| == 0 then [] else [es[0].0] + KeysOf(es[1..])
  }

  /** No key occurs twice: the invariant every ordered map keeps. */
  ghost predicate UniqueKeys<K, V>(es: Entries<K, V>) {
    forall i, j :: 0 <= i < j < |es| ==> es[i].0 != es[j].0
  }

  /** The value stored under `k`, if any. */
  function Lookup<K(==), V>(es: Entries<K, V>, k: K): (r: Option<V>)
    ensures r.None? <==> k !in KeysOf(es)
  {
    if |es| == 0 then None
    else if es[0].0 == k then Some(es[0].1)
    else Lookup(es[1..], k)
  }

  /**
   * Store(k, v): a key already present keeps its position and takes the new
   * value; a new key is appended at the end.
   */
  function Store<K(==,!new), V>(es: Entries<K, V>, k: K, v: V): (r: Entries<K, V>)
    ensures k in KeysOf(es) ==> KeysOf(r) == KeysOf(es)
    ensures k !in KeysOf(es) ==> r == es + [(k, v)]
    decreases |es|
  {
    if |es| == 0 then [(k, v)]
    else if es[0].0 == k then
      var r := [(k, v)] + es[1..];
      assert r[1..] == es[1..];
      KeysOfCons(es);
      KeysOfCons(r);
      r
    else
      var rest := Store(es[1..], k, v);
      var r := [es[0]] + rest;
      assert r[1..] == rest;
      KeysOfCons(es);
      KeysOfCons(r);
      assert k !in KeysOf(es) ==> r == es + [(k, v)] by {
        if k !in KeysOf(es) {
          assert es == [es[0]] + es[1..];
        }
      }
      r
  }

  lemma KeysOfCons<K, V>(es: Entries<K, V>)
    requires |es| > 0
    ensures KeysOf(es) == [es[0].0] + KeysOf(es[1..])
  {
  }

  /** After Store(k, v), `k` holds `v` and every other key holds what it held before. */
  lemma {:induction false} StoreLookup<K(!new), V>(es: Entries<K, V>, k: K, v: V, k': K)
    ensures Lookup(Store(es, k, v), k') == if k' == k then Some(v) else Lookup(es, k')
    decreases |es|
  {
    if |es| > 0 && es[0].0 != k {
      StoreLookup(es[1..], k, v, k');
      assert Store(es, k, v)[1..] == Store(es[1..], k, v);
    } else if |es| > 0 {
      assert Store(es, k, v)[1..] == es[1..];
    }
  }

  /** Store keeps keys unique. */
  lemma StoreKeepsUniqueKeys<K(!new), V>(es: Entries<K, V>, k: K, v: V)
    requires UniqueKeys(es)
    ensures UniqueKeys(Store(es, k, v))
  {
    var r := Store(es, k, v);
    if k in KeysOf(es) {
      forall i, j | 0 <= i < j < |r|
        ensures r[i].0 != r[j].0
      {
        assert r[i].0 == KeysOf(r)[i] == KeysOf(es)[i];
        assert r[j].0 == KeysOf(r)[j] == KeysOf(es)[j];
      }
    } else {
      forall i, j | 0 <= i < j < |r|
        ensures r[i].0 != r[j].0
      {
        if j == |es| {
          assert r[i].0 == KeysOf(es)[i];
        }
      }
    }
  }

  /** Store every pair of `ps`, in order. */
  function StoreAll<K(==,!new), V>(es: Entries<K, V>, ps: seq<(K, V)>): Entries<K, V>
    decreases |ps|
  {
    if |ps| == 0 then es else StoreAll(Store(es, ps[0].0, ps[0].1), ps[1..])
  }

  /** Storing pairs whose keys are all new appends them in order, unchanged. */
  lemma {:induction false} StoreAllFresh<K(!new), V>(es: Entries<K, V>, ps: seq<(K, V)>)
    requires UniqueKeys(es + ps)
    ensures StoreAll(es, ps) == es + ps
    decreases |ps|
  {
    if |ps| > 0 {
      var k := ps[0].0;
      forall i | 0 <= i < |es|
        ensures KeysOf(es)[i] != k
      {
        assert (es + ps)[i] == es[i] && (es + ps)[|es|] == ps[0];
      }
      var es' := Store(es, k, ps[0].1);
      assert es' == es + [ps[0]];
      assert es' + ps[1..] == es + ps;
      StoreAllFresh(es', ps[1..]);
    }
  }

  /** A key no pair mentions keeps its value; a key stored by the last pair ends with that pair's value. */
  lemma {:induction false} StoreAllLookup<K(!new), V>(es: Entries<K, V>, ps: seq<(K, V)>, k: K)
    ensures k !in KeysOf(ps) ==> Lookup(StoreAll(es, ps), k) == Lookup(es, k)
    ensures |ps| > 0 && ps[|ps| - 1].0 == k ==> Lookup(StoreAll(es, ps), k) == Some(ps[|ps| - 1].1)
    decreases |ps|
  {
    if |ps| > 0 {
      var es' := Store(es, ps[0].0, ps[0].1);
      StoreLookup(es, ps[0].0, ps[0].1, k);
      StoreAllLookup(es', ps[1..], k);
      assert KeysOf(ps) == [ps[0].0] + KeysOf(ps[1..]);
      if |ps| > 1 {
        assert ps[1..][|ps[1..]| - 1] == ps[|ps| - 1];
      }
    }
  }

  /** Storing a run of pairs in two parts is storing them at once. */
  lemma {:induction false} StoreAllAppend<K(!new), V>(es: Entries<K, V>, ps: seq<(K, V)>, qs: seq<(K, V)>)
    ensures StoreAll(es, ps + qs) == StoreAll(StoreAll(es, ps), qs)
    decreases |ps|
  {
    if |ps| == 0 {
      assert ps + qs == qs;
    } else {
      assert (ps + qs)[0] == ps[0];
      assert (ps + qs)[1..] == ps[1..] + qs;
      StoreAllAppend(Store(es, ps[0].0, ps[0].1), ps[1..], qs);
    }
  }

  /** When a key is stored more than once, the value of its last pair wins. */
  lemma StoreAllLastWins<K(!new), V>(es: Entries<K, V>, ps: seq<(K, V)>, k: K, i: nat)
    requires i < |ps| && ps[i].0 == k
    requires forall j :: i < j < |ps| ==> ps[j].0 != k
    ensures Lookup(StoreAll(es, ps), k) == Some(ps[i].1)
  {
    var pre := ps[..i + 1];
    var post := ps[i + 1..];
    assert ps == pre + post;
    StoreAllAppend(es, pre, post);
    assert pre[|pre| - 1] == ps[i];
    StoreAllLookup(es, pre, k);
    forall j | 0 <= j < |post|
      ensures KeysOf(post)[j] != k
    {
      assert post[j] == ps[i + 1 + j];
    }
    StoreAllLookup(StoreAll(es, pre), post, k);
  }
}

=== FILE: round_trip.dfy ===
/**
 * Encoding followed by decoding. The tokens a json.Decoder yields for the
 * encoder's output are given here from the members the encoder wrote: `{`,
 * then for each member its key as a string token and its value as one value
 * token, then `}`, each with the byte offset just after it.
 */
module RoundTrip {
  import opened Wrappers
  import opened Errors
  import opened JsonLib
  import opened Keys
  import opened OrderedMap
  import opened Encoder
  import opened Decoder

  /** Tokens for members written after byte `pos`; every member but the first is preceded by `,`. */
  function MemberTokens<V>(c: Codec<V>, ms: seq<Member>, pos: int, first: bool): seq<Token>
    decreases |ms|
  {
    if |ms| == 0 then []
    else
      var keyEnd := pos + (if first then 0 else 1) + |ms[0].0|;
      var valEnd := keyEnd + 1 + |ms[0].1|;
      [Text(c.unquote(ms[0].0), keyEnd), Val(ms[0].1, valEnd)] + MemberTokens(c, ms[1..], valEnd, false)
  }

  /** The token stream of `ObjectText(ms)`. */
  function WireStream<V>(c: Codec<V>, ms: seq<Member>): Stream {
    var n := |ObjectText(ms)|;
    Stream([Delim('{', 1)] + MemberTokens(c, ms, 1, true) + [Delim('}', n)], Eof(n))
  }

  /**
   * The offsets follow the text: the last member token ends where the
   * comma-separated members end, so the closing brace is the last byte.
   */
  lemma {:induction false} MemberTokensEndWithText<V>(c: Codec<V>, ms: seq<Member>, pos: int, first: bool)
    requires |ms| > 0
    ensures |MemberTokens(c, ms, pos, first)| == 2 * |ms|
    ensures MemberTokens(c, ms, pos, first)[2 * |ms| - 1].offset ==
            pos + (if first then 0 else 1) + |JoinMembers(ms)|
    decreases |ms|
  {
    var keyEnd := pos + (if first then 0 else 1) + |ms[0].0|;
    var valEnd := keyEnd + 1 + |ms[0].1|;
    if |ms| > 1 {
      MemberTokensEndWithText(c, ms[1..], valEnd, false);
    }
  }

  /** In the stream of a non-empty object, the token before `}` ends one byte before the text does. */
  lemma WireOffsetsMatchText<V>(c: Codec<V>, ms: seq<Member>)
    requires |ms| > 0
    ensures var ts := WireStream(c, ms).tokens;
            |ts| == 2 * |ms| + 2 &&
            ts[|ts| - 2].offset + 1 == ts[|ts| - 1].offset == |ObjectText(ms)|
  {
    MemberTokensEndWithText(c, ms, 1, true);
  }

  /** The entries the round trip restores: every key of type `kt` and restorable, every value reading back. */
  ghost predicate Restorables<V>(c: Codec<V>, kt: KeyType, es: Entries<Key, V>) {
    forall i :: 0 <= i < |es| ==> TypeOf(es[i].0) == kt && Restorable(es[i].0) && ValueReadsBack(c, es[i].1)
  }

  /** A key token and its value token at depth 0 store one pair and go on. */
  lemma WalkPair<V>(c: Codec<V>, kt: KeyType, ts: seq<Token>, rest: seq<Token>, k: Key, m: Entries<Key, V>)
    requires |ts| >= 2 && ts[0].Text? && ts[1].Val? && ts[2..] == rest
    requires DecodeKey(c, kt, Some(ts[0].s)) == Ok(k)
    ensures Walk(c, kt, ts, 0, m) == Walk(c, kt, rest, 0, Store(m, k, c.decodeValue(ts[1].raw)))
  {
    assert ts[1..][1..] == rest;
  }

  /**
   * A key token followed by the token of a value addJsonValue wrote: the
   * decoder stores that very value under the decoded key and goes on.
   */
  lemma MemberReadsBack<V>(c: Codec<V>, kt: KeyType, name: string, o1: int, v: V, o2: int,
                           rest: seq<Token>, k: Key, m: Entries<Key, V>)
    requires ValueReadsBack(c, v)
    requires DecodeKey(c, kt, Some(name)) == Ok(k)
    ensures AddJsonValue(c, v).Ok?
    ensures Walk(c, kt, [Text(name, o1), Val(AddJsonValue(c, v).value, o2)] + rest, 0, m) ==
            Walk(c, kt, rest, 0, Store(m, k, v))
  {
    var ts := [Text(name, o1), Val(AddJsonValue(c, v).value, o2)] + rest;
    assert ts[2..] == rest;
    WalkPair(c, kt, ts, rest, k, m);
  }

  /** Each entry's member decodes back to that entry. */
  lemma EntryReadsBack<V>(c: Codec<V>, kt: KeyType, e: (Key, V), mb: Member)
    requires Lawful(c)
    requires TypeOf(e.0) == kt && Restorable(e.0) && ValueReadsBack(c, e.1)
    requires EncodeEntry(c, e) == Ok(mb)
    ensures DecodeKey(c, kt, Some(c.unquote(mb.0))) == Ok(e.0)
    ensures c.decodeValue(mb.1) == e.1
  {
    KeyRoundTrip(c, e.0);
  }

  lemma EncodeEntriesTail<V>(c: Codec<V>, es: Entries<Key, V>, ms: seq<Member>)
    requires |es| > 0 && EncodeEntries(c, es) == Ok(ms)
    ensures EncodeEntry(c, es[0]) == Ok(ms[0])
    ensures EncodeEntries(c, es[1..]) == Ok(ms[1..])
  {
  }

  lemma MemberTokensCons<V>(c: Codec<V>, ms: seq<Member>, pos: int, first: bool, keyEnd: int, valEnd: int)
    requires |ms| > 0
    requires keyEnd == pos + (if first then 0 else 1) + |ms[0].0| && valEnd == keyEnd + 1 + |ms[0].1|
    ensures MemberTokens(c, ms, pos, first) ==
            [Text(c.unquote(ms[0].0), keyEnd), Val(ms[0].1, valEnd)] + MemberTokens(c, ms[1..], valEnd, false)
  {
  }

  /** The first member's two tokens store its entry; decoding goes on with the remaining members. */
  lemma WalkFirstMember<V>(c: Codec<V>, kt: KeyType, ms: seq<Member>, pos: int, first: bool, next: int,
                           e: (Key, V), m: Entries<Key, V>)
    requires |ms| > 0
    requires next == pos + (if first then 0 else 1) + |ms[0].0| + 1 + |ms[0].1|
    requires DecodeKey(c, kt, Some(c.unquote(ms[0].0))) == Ok(e.0)
    requires c.decodeValue(ms[0].1) == e.1
    ensures Walk(c, kt, MemberTokens(c, ms, pos, first), 0, m) ==
            Walk(c, kt, MemberTokens(c, ms[1..], next, false), 0, Store(m, e.0, e.1))
  {
    var rest := MemberTokens(c, ms[1..], next, false);
    var ts := MemberTokens(c, ms, pos, first);
    MemberTokensCons(c, ms, pos, first, pos + (if first then 0 else 1) + |ms[0].0|, next);
    assert ts[2..] == rest;
    WalkPair(c, kt, ts, rest, e.0, m);
  }

  lemma RestorablesTail<V>(c: Codec<V>, kt: KeyType, es: Entries<Key, V>)
    requires |es| > 0 && Restorables(c, kt, es)
    ensures TypeOf(es[0].0) == kt && Restorable(es[0].0) && ValueReadsBack(c, es[0].1)
    ensures Restorables(c, kt, es[1..])
  {
    assert forall i :: 0 <= i < |es[1..]| ==> es[1..][i] == es[i + 1];
  }

  /** Decoding the members stores every entry, in encoding order, and raises nothing. */
  lemma {:induction false} WalkMembers<V>(c: Codec<V>, kt: KeyType, es: Entries<Key, V>, ms: seq<Member>,
                                          pos: int, first: bool, m: Entries<Key, V>)
    requires Lawful(c)
    requires Restorables(c, kt, es)
    requires EncodeEntries(c, es) == Ok(ms)
    ensures Walk(c, kt, MemberTokens(c, ms, pos, first), 0, m) == Walked(StoreAll(m, es), 0, None)
    decreases |es|
  {
    if |es| > 0 {
      EncodeEntriesTail(c, es, ms);
      RestorablesTail(c, kt, es);
      EntryReadsBack(c, kt, es[0], ms[0]);
      var next := pos + (if first then 0 else 1) + |ms[0].0| + 1 + |ms[0].1|;
      WalkFirstMember(c, kt, ms, pos, first, next, es[0], m);
      WalkMembers(c, kt, es[1..], ms[1..], next, false, Store(m, es[0].0, es[0].1));
    }
  }

  /**
   * Round trip into a map that already holds entries: decoding what the
   * encoder wrote stores every entry in order, as Store would, and raises
   * nothing.
   */
  lemma RoundTripStores<V>(c: Codec<V>, kt: KeyType, es: Entries<Key, V>, m: Entries<Key, V>)
    requires Lawful(c)
    requires Restorables(c, kt, es)
    requires Marshal(c, es).Ok?
    ensures Marshal(c, es) == Ok(ObjectText(EncodeEntries(c, es).value))
    ensures Unmarshal(c, kt, WireStream(c, EncodeEntries(c, es).value), m) == Outcome(StoreAll(m, es), None)
  {
    var ms := EncodeEntries(c, es).value;
    var n := |ObjectText(ms)|;
    var body := MemberTokens(c, ms, 1, true);
    var s := WireStream(c, ms);
    assert s.tokens[1..] == body + [Delim('}', n)];
    WalkMembers(c, kt, es, ms, 1, true, m);
    WalkAppend(c, kt, body, [Delim('}', n)], 0, m);
  }

  /**
   * The round trip the doc comments promise: a map whose keys all have the
   * key type and are restorable, and whose values read back, decodes from
   * its own encoding into an empty map as the same entries in the same order.
   */
  lemma RoundTripRestoresMap<V>(c: Codec<V>, kt: KeyType, es: Entries<Key, V>)
    requires Lawful(c)
    requires UniqueKeys(es)
    requires Restorables(c, kt, es)
    requires Marshal(c, es).Ok?
    ensures Unmarshal(c, kt, WireStream(c, EncodeEntries(c, es).value), []) == Outcome(es, None)
  {
    RoundTripStores(c, kt, es, []);
    assert [] + es == es;
    StoreAllFresh([], es);
  }

  /**
   * The encoder's output with its final `}` cut off: every entry is stored,
   * and then the decode fails with "does not end with '}'" at the end offset.
   */
  lemma MissingCloseBraceAfterStoring<V>(c: Codec<V>, kt: KeyType, es: Entries<Key, V>, m: Entries<Key, V>)
    requires Lawful(c)
    requires Restorables(c, kt, es)
    requires Marshal(c, es).Ok?
    ensures var ms := EncodeEntries(c, es).value;
            var n := |ObjectText(ms)| - 1;
            Unmarshal(c, kt, Stream([Delim('{', 1)] + MemberTokens(c, ms, 1, true), Eof(n)), m) ==
            Outcome(StoreAll(m, es), Some(Syntax(n, NotEndMsg)))
  {
    var ms := EncodeEntries(c, es).value;
    var n := |ObjectText(ms)| - 1;
    var body := MemberTokens(c, ms, 1, true);
    var s := Stream([Delim('{', 1)] + body, Eof(n));
    assert s.tokens[1..] == body;
    WalkMembers(c, kt, es, ms, 1, true, m);
    UnmarshalOpened(c, kt, s, m);
  }
}

=== FILE: wrappers.dfy ===
/** Option and Result, the failure-carrying datatypes the codec model is written with. */
module Wrappers {

  /** A value that may be absent: a Go pointer that may be nil, a parse that may fail. */
  datatype Option<+T> = None | Some(value: T)

  /** Either a value or the error that replaced it, as Go's `(T, error)` pairs. */
  datatype Result<+T, +E> = Ok(value: T) | Err(error: E) {

    predicate IsFailure() {
      Err?
    }

    function PropagateFailure<U>(): Result<U, E>
      requires Err?
    {
      Err(error)
    }

    function Extract(): T
      requires Ok?
    {
      value
    }
  }
}
